=== FILE: README.md ===
# Simple Piano tutorial engine — a Dafny model

This project models the game engine of the Simple Piano tutorial (`src/App.jsx`): the song
library, the per-press pitch and timing scorer, the session lifecycle
(IDLE / PLAYING / ENDED / REPLAYING / REPLAY_PAUSED), the replay timer chain with pause, resume
and stop, and the end-of-session score and verdict. It proves properties of that model.

Modules, leaves first:

- `Basics` (`basics.dfy`): `Option` and `Result`.
- `Songs` (`songs.dfy`): the seven pitches with their keyboard triggers, the duration classes and
  their millisecond values, the three library songs, song lookup, and phrase flattening.
- `Scoring` (`scoring.dfy`): the timing grade of a correctly pitched press, and the history entry
  a press produces.
- `Replay` (`replay.dfy`): the replay delays computed from a history.
- `Aggregate` (`aggregate.dfy`): the final score, the verdict and how the two relate.
- `Session` (`session.dfy`): the session state `State`, one pure function per handler of `src/App.jsx`,
  the event-driven `Step` function, the invariant `Valid` that every step preserves, and the traces
  the replay timer chain produces.

The tutorial fields of a state are the song, its phrases and targets, the index, the time of the
last press and the held key; `KeepsTutorial(s, t)` says that `t` has the same ones as `s`. The
replay operations keep them.

Time is an integer parameter in milliseconds. `now` is passed with each tutorial start and each key
press. An armed `setTimeout` is the session's `pending` field. That field holds a `Wake`, which
records what the timer closure captured: the position, the entry, the delay and the delay plan.
`clearTimeout` sets `pending` to `None`, and a timer firing is the `Fire` step.

`startTutorial`, `exitTutorial`, `startReplay`, `pauseReplay`, `resumeReplay` and `stopReplay` do
not check the phase and raise no invalid-transition error; the matching functions here do not
either. `handleNoteStart` is the only handler that reads the phase (src/App.jsx:201, 207), and
`NoteDown` keeps those guards. `playNextReplayNote` checks only the cursor (src/App.jsx:122). The
phase gating comes from which buttons the screen shows. `Step` models it: an event whose button is
not on screen leaves the state unchanged, while key presses and timer firings are always delivered.
- Song choice is offered only in IDLE (src/App.jsx:547-560).
- `ExitTutorial` works from any state, but the screen offers exit only in PLAYING (Quit Tutorial,
  src/App.jsx:562-569) and ENDED (Menu, src/App.jsx:512-517).
- Replay is offered in ENDED, Pause in REPLAYING, Resume in REPLAY_PAUSED, and Stop in both replay
  states (src/App.jsx:505-537).
- An unknown song title makes `startTutorial` throw at `.flat()` before any state changes.
  `StartTutorial` returns `Failure(UnknownSong(name))`, and `Step` leaves the state unchanged.

## Model

| member | source | states |
|---|---|---|
| `Songs.NominalMs` | src/App.jsx:15-19 | each duration class maps to 250, 500 or 1000 ms |
| `Songs.NominalMsDoubles` | src/App.jsx:15-19 | Medium is twice Short and Long is twice Medium, so longer classes wait longer |
| `Songs.PitchOfKey` | src/App.jsx:270-276 | the NOTES lookup by key (with the triggers of lines 4-12): a key name selects a pitch only when it is one character whose lower-cased form is that pitch's trigger; when no pitch is selected, no trigger matches. `Step` takes a `Pitch` directly, so this lookup is not wired into it |
| `Songs.KeyRoundTrip` | src/App.jsx:4-12 | every pitch is found again from its trigger key, typed in lower or upper case |
| `Songs.KeyTriggerInjective` | src/App.jsx:4-12 | distinct pitches have distinct trigger keys |
| `Songs.LoadSong` | src/App.jsx:98-99 | lookup succeeds exactly for library titles, returns that title's phrases, and otherwise fails with UnknownSong |
| `Songs.Flatten` | src/App.jsx:100 | the flattened melody is as long as the sum of the phrase lengths and begins with the first phrase |
| `Songs.FlattenPlacesNote` | src/App.jsx:100 | flattening preserves order: note j of phrase i lands at the phrase's offset plus j |
| `Songs.FlattenCovers` | src/App.jsx:100 | every position of the flattened melody holds note j of some phrase i, at that phrase's offset plus j |
| `Songs.LibrarySongsNonEmpty` | src/App.jsx:22-44 | every library song has at least one target note |
| `Songs.LibraryLengths` | src/App.jsx:22-44 | Ode to Joy, Baby Shark and Jingle Bells have 15, 20 and 26 target notes |
| `Scoring.LabelTextInjective` | src/App.jsx:212-239 | the six timing labels ("Perfect", "Fast", "Slow", "Too Fast", "Too Slow", "Wrong Note") are distinct strings, so the enumeration loses nothing the source's label string carries |
| `Scoring.GradeTiming` | src/App.jsx:224-236 | Perfect (100) exactly within ±120 ms; Fast or Slow (80) exactly when 120 < abs(diff) ≤ 350, by the sign of diff; Too Fast or Too Slow (40) exactly beyond 350 ms |
| `Scoring.GradeMonotone` | src/App.jsx:227-236 | a larger deviation never scores more |
| `Scoring.GradeSymmetric` | src/App.jsx:230-236 | early and late by the same amount score the same, and the label flips between Fast and Slow and between Too Fast and Too Slow |
| `Scoring.ScoreAttempt` | src/App.jsx:207-251 | the entry records the played key, the time and the target key; correct iff the key matches the target; a wrong key gives 0 and Wrong Note at any index; a correct first note gives 100 and Perfect without timing; a later correct note is graded on now − lastNoteTime − the previous target's nominal duration; the score is always 0, 40, 80 or 100 |
| `Scoring.ScoreExamples` | src/App.jsx:219-236 | after a Medium note, a correct press 500, 350 and 900 ms later gives 100 Perfect, 80 Fast and 40 Too Slow |
| `Replay.Delays` | src/App.jsx:111-119 | no delays for an empty history; otherwise one per entry: 500 first, then the recorded gap to the previous entry |
| `Replay.DelayFor` | src/App.jsx:129 | position 0 waits the 500 ms lead-in and every other position waits its planned delay |
| `Replay.DelaysReproduceCadence` | src/App.jsx:111-119 | the delays up to entry k add up to 500 plus that entry's recorded time since the first press, so replay keeps the player's cadence |
| `Replay.DelaysExample` | src/App.jsx:111-119 | presses at 1000, 1500 and 2200 ms give delays 500, 500 and 700 |
| `Aggregate.RoundHalfUp` | src/App.jsx:292 | the result is the integer nearest to s/n, with halves rounded up, as Math.round does |
| `Aggregate.RoundHalfUpBounds` | src/App.jsx:292 | rounding keeps the mean within any integer bounds the exact mean lies within |
| `Aggregate.FinalScore` | src/App.jsx:289-293 | 0 for an empty history; otherwise the mean timing score rounded half up |
| `Aggregate.FinalScoreInRange` | src/App.jsx:289-293 | with every score in 0..100, the final score is in 0..100 |
| `Aggregate.RhythmVerdict` | src/App.jsx:313-318 | Virtuoso exactly when the mean reaches 98; Excellent exactly from 95 up to 98; Great exactly from 85 up to 95; Loose exactly from 70 up to 85; "rhythm is off" exactly below 70 |
| `Aggregate.VerdictTextInjective` | src/App.jsx:297-318 | the eight verdict texts are distinct strings, so the enumeration loses nothing the source's returned string carries |
| `Aggregate.ScoreLabel` | src/App.jsx:296-319 | No data iff empty; "too many wrong notes" iff accuracy is below 80%; "good notes" iff accuracy is at least 80% and below 100%; a rhythm verdict iff accuracy is 100%, judged on the mean timing score of the correct entries |
| `Aggregate.AccuracyGateIgnoresTiming` | src/App.jsx:309-310 | below full accuracy, histories with the same correctness pattern get the same verdict whatever their timing |
| `Aggregate.RhythmJudgesMeanOfAll` | src/App.jsx:299-318 | at full accuracy the rhythm verdict is the verdict on the mean of all timing scores |
| `Aggregate.VirtuosoScoresHigh` | src/App.jsx:289-318 | a Virtuoso verdict implies a final score of at least 98 |
| `Session.StartTutorial` | src/App.jsx:98-109 | an unknown title fails; otherwise PLAYING with the song, its phrases and their flattening, index 0, empty history, and lastNoteTime = now |
| `Session.PlayNext` | src/App.jsx:121-146 | a cursor at or past the end sets ENDED with no armed timer; otherwise it arms a timer for that entry with its delay; song, targets, index, lastNoteTime and held key are kept |
| `Session.StartReplay` | src/App.jsx:148-153 | rewinds the cursor; an empty history ends at once; otherwise REPLAYING with a timer armed for entry 0 after 500 ms; history and the tutorial fields are kept |
| `Session.PauseReplay` | src/App.jsx:155-160 | cancels the armed timer, keeps the cursor, the history and the tutorial fields, and sets REPLAY_PAUSED |
| `Session.ResumeReplay` | src/App.jsx:162-166 | continues at the same cursor with the recomputed delay for that entry, or ends when nothing is left; history and the tutorial fields are kept |
| `Session.StopReplay` | src/App.jsx:168-175 | cancels the timer, sets ENDED and resets the cursor to 0; history and the tutorial fields are kept |
| `Session.ExitTutorial` | src/App.jsx:177-185 | from any state: IDLE, no song, no phrases, no targets, empty history, index 0, cursor 0, no armed timer |
| `Session.Fire` | src/App.jsx:131-145 | with no armed timer nothing happens; otherwise it replays the armed entry with its delay, advances the cursor by one and keeps the history and the tutorial fields |
| `Session.NoteDown` | src/App.jsx:200-262 | ignored in replay states and while the same key is held; otherwise it sounds the key; outside PLAYING history, phase, index and lastNoteTime are kept; in PLAYING it appends exactly one entry (old history is a prefix, target = flat[index], time = now), sets lastNoteTime = now, and moves to the next index or to ENDED after the last target |
| `Session.NoteUp` | src/App.jsx:264-266 | releasing a key clears the held key and changes nothing else |
| `Session.Step` | src/App.jsx:505-569 | events whose button is not on screen change nothing; only a timer firing replays a note; the history changes only by a press in PLAYING, a tutorial start or an exit |
| `Session.InitValid` | src/App.jsx:47-62 | the initial state is IDLE and satisfies the session invariant |
| `Session.StepPreservesValid` | src/App.jsx:98-266 | every step keeps the invariant: in PLAYING, index < len(targets) and len(history) = index; after play, len(history) = len(targets); each entry answers its target; a timer is armed exactly while REPLAYING, for the entry under the cursor |
| `Session.ScoredPressValid` | src/App.jsx:242-260 | a scored press keeps the invariant, including len(history) = index before the next press |
| `Session.FireReplaysCursor` | src/App.jsx:128-145 | during a replay each firing emits the entry under the cursor with its recorded delay, and then either keeps replaying one entry further or ends |
| `Session.ReplayEmitsRemaining` | src/App.jsx:121-146 | from any point of a replay, the remaining firings emit exactly the entries not yet replayed, in order and with their recorded delays, then end with the cursor past the last entry |
| `Session.FullReplay` | src/App.jsx:148-153 | replaying a finished session emits the whole history with its recorded delays and returns to ENDED |
| `Session.PauseResumeRestores` | src/App.jsx:155-166 | pausing and then resuming gives back exactly the running state, with the same armed timer |
| `Session.FireArmsNext` | src/App.jsx:128-145 | a firing during a replay changes only the cursor (one further) and the timer (armed for the next entry), or ends the replay after the last entry |
| `Session.ResumeFromAnyPause` | src/App.jsx:155-166 | from any paused state, whatever keys were pressed or released while paused, resuming emits exactly the entries not yet replayed with their recorded delays |
| `Session.PauseResumeSameTrace` | src/App.jsx:155-166 | after a pause and a resume, the replay emits the same remaining notes with the same delays as an uninterrupted replay |
| `Session.ExitSilencesReplay` | src/App.jsx:168-185 | after an exit a timer firing makes no sound and changes nothing |
| `Session.FinalScoreOfValid` | src/App.jsx:289-293 | in every reachable state the final score is between 0 and 100 |

## Left out

- Web Audio (`initAudio`, `playSound`): the model does not compute sound. A press that sounds yields the effect `Sound(p)`, and a replayed note yields `Replayed(...)`. Note frequencies are left out because they are floating point.
- The key offsets, the rendering functions, the scroll-into-view effect and the JSX tree: these are presentation only.
- The 300 ms timer that clears the replay highlight, and `setReplayState(null)`: the highlight is the `Replayed` effect of a firing, not state.
- `Date.now()` and `setTimeout`: time is the `now` parameter, and a timer firing is the `Fire` step. The model does not check that `now` is monotonic.
- React stale closures and update batching: the model uses the intended sequential semantics.
- Key-listener wiring: the input source filters auto-repeat (`!e.repeat`) before the model sees a key.
- Songs.PitchOfKey: lower-cases ASCII letters only, where JavaScript's `toLowerCase` is Unicode-aware. No non-ASCII character lower-cases to one of the seven trigger letters.
- Aggregate.ScoreLabel: the floating-point comparisons become integer ones. Accuracy below 80% becomes `100·correct < 80·n`. A mean of at least t becomes `total ≥ t·count`. These agree with the double-precision code for any realistic history length, but are not proved against IEEE arithmetic.
- Aggregate.FinalScore: `Math.round(total / n)` becomes `(2·total + n) div 2n`. This is exact rounding of the true quotient; the floating-point division is not modelled.
- Session.NoteDown: requires the index to be in range while PLAYING, because the source would throw on a missing target. `Valid` guarantees this.
- Replay.DelayFor: a position past the plan returns 0, which is what an undefined delay means to a timer. No valid state reaches that case.

=== FILE: aggregate.dfy ===
/** The end-of-session score and verdict computed from the history. */
module Aggregate {
  import opened Scoring

  /** Sum of all timing scores. */
  function SumScores(h: seq<Entry>): int
  {
    if |h| == 0 then 0 else h[0].timingScore + SumScores(h[1..])
  }

  /** Number of correctly pitched entries. */
  function CorrectCount(h: seq<Entry>): (c: nat)
    ensures c <= |h|
  {
    if |h| == 0 then 0 else (if h[0].correct then 1 else 0) + CorrectCount(h[1..])
  }

  /** Sum of the timing scores of the correctly pitched entries. */
  function CorrectSum(h: seq<Entry>): int
  {
    if |h| == 0 then 0 else (if h[0].correct then h[0].timingScore else 0) + CorrectSum(h[1..])
  }

  /** Every entry's timing score lies in 0..100. */
  predicate ScoresInRange(h: seq<Entry>)
  {
    forall i :: 0 <= i < |h| ==> 0 <= h[i].timingScore <= 100
  }

  lemma {:induction false} SumScoresBounds(h: seq<Entry>)
    requires ScoresInRange(h)
    ensures 0 <= SumScores(h) <= 100 * |h|
  {
    if |h| > 0 {
      assert ScoresInRange(h[1..]) by {
        forall i | 0 <= i < |h[1..]| ensures 0 <= h[1..][i].timingScore <= 100 {
          assert h[1..][i] == h[i + 1];
        }
      }
      SumScoresBounds(h[1..]);
    }
  }

  /** Rounds `s / n` to the nearest integer, halves upwards (the rounding of `Math.round`). */
  function RoundHalfUp(s: int, n: int): (r: int)
    requires n > 0
    ensures 2 * n * r <= 2 * s + n < 2 * n * (r + 1)
  {
    var q := (2 * s + n) / (2 * n);
    assert 2 * s + n == 2 * n * q + (2 * s + n) % (2 * n);
    q
  }

  /** Multiplying by a non-negative factor keeps order. */
  lemma MulMono(n: int, a: int, b: int)
    requires n >= 0
    ensures a <= b ==> n * a <= n * b
  {
    if a <= b {
      assert n * b - n * a == n * (b - a);
    }
  }

  /** The rounded mean stays within any integer bounds the exact mean stays within. */
  lemma RoundHalfUpBounds(s: int, n: int, lo: int, hi: int)
    requires n > 0 && lo * n <= s <= hi * n
    ensures lo <= RoundHalfUp(s, n) <= hi
  {
    var r := RoundHalfUp(s, n);
    MulMono(2 * n, hi + 1, r);
    MulMono(2 * n, r + 1, lo);
    assert 2 * n * (hi + 1) == 2 * (hi * n) + 2 * n;
    assert 2 * n * lo == 2 * (lo * n);
  }

  /** The rounded mean reaches any integer the exact mean reaches. */
  lemma RoundHalfUpAtLeast(s: int, n: int, lo: int)
    requires n > 0 && lo * n <= s
    ensures lo <= RoundHalfUp(s, n)
  {
    var r := RoundHalfUp(s, n);
    MulMono(2 * n, r + 1, lo);
    assert 2 * n * lo == 2 * (lo * n);
  }

  /** The final score: the mean timing score rounded to the nearest integer, 0 for no presses. */
  function FinalScore(h: seq<Entry>): (r: int)
    ensures |h| == 0 ==> r == 0
    ensures |h| > 0 ==> 2 * |h| * r <= 2 * SumScores(h) + |h| < 2 * |h| * (r + 1)
  {
    if |h| == 0 then 0 else RoundHalfUp(SumScores(h), |h|)
  }

  /** A history of well-formed scores has a final score between 0 and 100. */
  lemma FinalScoreInRange(h: seq<Entry>)
    requires ScoresInRange(h)
    ensures 0 <= FinalScore(h) <= 100
  {
    if |h| > 0 {
      SumScoresBounds(h);
      RoundHalfUpBounds(SumScores(h), |h|, 0, 100);
    }
  }

  /** The verdict shown under the final score. */
  datatype Verdict = NoData | TooManyWrong | GoodNotes | Virtuoso | Excellent | Great | Loose | RhythmOff

  function VerdictText(v: Verdict): string
  {
    match v
    case NoData => "No data"
    case TooManyWrong => "Too many wrong notes. Focus on accuracy."
    case GoodNotes => "Good notes, but aim for 100% accuracy."
    case Virtuoso => "Virtuoso! Perfect Pitch & Timing."
    case Excellent => "Excellent! Almost flawless timing."
    case Great => "Great job, but tighten up the rhythm."
    case Loose => "Right keys, but the timing is loose."
    case RhythmOff => "Correct notes, but the rhythm is off."
  }

  /** Distinct verdicts show distinct texts. */
  lemma VerdictTextInjective(a: Verdict, b: Verdict)
    ensures VerdictText(a) == VerdictText(b) ==> a == b
  {
  }

  /** Whether the mean `total / count` reaches `threshold`; the mean of nothing is 0. */
  predicate MeanAtLeast(total: int, count: nat, threshold: int)
  {
    if count == 0 then 0 >= threshold else total >= threshold * count
  }

  /** Classifies a rhythm mean by the 98 / 95 / 85 / 70 thresholds. */
  function RhythmVerdict(total: int, count: nat): (v: Verdict)
    ensures v == Virtuoso <==> MeanAtLeast(total, count, 98)
    ensures v == Excellent <==> MeanAtLeast(total, count, 95) && !MeanAtLeast(total, count, 98)
    ensures v == Great <==> MeanAtLeast(total, count, 85) && !MeanAtLeast(total, count, 95)
    ensures v == Loose <==> MeanAtLeast(total, count, 70) && !MeanAtLeast(total, count, 85)
    ensures v == RhythmOff <==> !MeanAtLeast(total, count, 70)
    ensures v != NoData && v != TooManyWrong && v != GoodNotes
  {
    if MeanAtLeast(total, count, 98) then Virtuoso
    else if MeanAtLeast(total, count, 95) then Excellent
    else if MeanAtLeast(total, count, 85) then Great
    else if MeanAtLeast(total, count, 70) then Loose
    else RhythmOff
  }

  /** Whether a verdict is one of the rhythm verdicts, given only at full pitch accuracy. */
  predicate IsRhythmVerdict(v: Verdict)
  {
    v == Virtuoso || v == Excellent || v == Great || v == Loose || v == RhythmOff
  }

  /** The verdict: pitch accuracy gates first (below 80%, below 100%), and only a perfectly pitched
      performance is judged on rhythm. */
  function ScoreLabel(h: seq<Entry>): (v: Verdict)
    ensures v == NoData <==> |h| == 0
    ensures v == TooManyWrong <==> |h| > 0 && 100 * CorrectCount(h) < 80 * |h|
    ensures v == GoodNotes <==> |h| > 0 && 80 * |h| <= 100 * CorrectCount(h) && CorrectCount(h) < |h|
    ensures IsRhythmVerdict(v) <==> |h| > 0 && CorrectCount(h) == |h|
    ensures IsRhythmVerdict(v) ==> v == RhythmVerdict(CorrectSum(h), CorrectCount(h))
  {
    if |h| == 0 then NoData
    else
      var correct := CorrectCount(h);
      if 100 * correct < 80 * |h| then TooManyWrong
      else if correct < |h| then GoodNotes
      else RhythmVerdict(CorrectSum(h), correct)
  }

  /** Two histories agree on pitch correctness entry by entry. */
  predicate SameCorrectness(h1: seq<Entry>, h2: seq<Entry>)
  {
    |h1| == |h2| && forall i :: 0 <= i < |h1| ==> h1[i].correct == h2[i].correct
  }

  lemma {:induction false} CorrectCountOnlyReadsCorrectness(h1: seq<Entry>, h2: seq<Entry>)
    requires SameCorrectness(h1, h2)
    ensures CorrectCount(h1) == CorrectCount(h2)
  {
    if |h1| > 0 {
      assert SameCorrectness(h1[1..], h2[1..]) by {
        forall i | 0 <= i < |h1[1..]| ensures h1[1..][i].correct == h2[1..][i].correct {
          assert h1[1..][i] == h1[i + 1] && h2[1..][i] == h2[i + 1];
        }
      }
      CorrectCountOnlyReadsCorrectness(h1[1..], h2[1..]);
    }
  }

  /** Below full pitch accuracy the verdict ignores timing: histories that differ only in their
      timing scores, labels or times get the same verdict. */
  lemma AccuracyGateIgnoresTiming(h1: seq<Entry>, h2: seq<Entry>)
    requires SameCorrectness(h1, h2)
    requires CorrectCount(h1) < |h1|
    ensures ScoreLabel(h1) == ScoreLabel(h2)
    ensures !IsRhythmVerdict(ScoreLabel(h1))
  {
    CorrectCountOnlyReadsCorrectness(h1, h2);
  }

  lemma {:induction false} AllCorrectSums(h: seq<Entry>)
    requires CorrectCount(h) == |h|
    ensures CorrectSum(h) == SumScores(h)
  {
    if |h| > 0 {
      assert CorrectCount(h[1..]) <= |h| - 1;
      AllCorrectSums(h[1..]);
    }
  }

  /** A Virtuoso verdict implies a final score of at least 98 on the same history. */
  lemma VirtuosoScoresHigh(h: seq<Entry>)
    requires ScoreLabel(h) == Virtuoso
    ensures FinalScore(h) >= 98
  {
    AllCorrectSums(h);
    RoundHalfUpAtLeast(SumScores(h), |h|, 98);
  }

  /** A verdict on rhythm is exactly a verdict on the mean of all timing scores. */
  lemma RhythmJudgesMeanOfAll(h: seq<Entry>)
    requires |h| > 0 && CorrectCount(h) == |h|
    ensures ScoreLabel(h) == RhythmVerdict(SumScores(h), |h|)
  {
    AllCorrectSums(h);
  }
}

=== FILE: basics.dfy ===
/** Option and Result datatypes shared by the other modules. */
module Basics {

  /** A value that may be absent (the source's `null`). */
  datatype Option<+T> = None | Some(value: T)

  /** The outcome of an operation that can fail with an error of type `E`. */
  datatype Result<+T, +E> = Success(value: T) | Failure(error: E)
}

=== FILE: replay.dfy ===
/** Replay timing: the delays that reproduce a recorded performance. */
module Replay {
  import opened Scoring

  /** Fixed wait before the first replayed note, in milliseconds. */
  const LeadInMs: int := 500

  /** The delay before each replayed note: the lead-in, then the recorded gap to the previous press. */
  function Delays(h: seq<Entry>): (d: seq<int>)
    ensures |d| == |h|
    ensures |h| > 0 ==> d[0] == LeadInMs
    ensures forall i :: 0 < i < |h| ==> d[i] == h[i].time - h[i - 1].time
  {
    if |h| == 0 then []
    else if |h| == 1 then [LeadInMs]
    else Delays(h[..|h| - 1]) + [h[|h| - 1].time - h[|h| - 2].time]
  }

  /** The delay the replay chain arms for position `index`: the lead-in at position 0, otherwise the
      planned value; a position past the plan reads as an undefined delay, which a timer treats as 0. */
  function DelayFor(plan: seq<int>, index: nat): (delay: int)
    ensures index == 0 ==> delay == LeadInMs
    ensures 0 < index < |plan| ==> delay == plan[index]
  {
    if index == 0 then LeadInMs else if index < |plan| then plan[index] else 0
  }

  /** Sum of a sequence of integers. */
  function Sum(s: seq<int>): int
  {
    if |s| == 0 then 0 else Sum(s[..|s| - 1]) + s[|s| - 1]
  }

  /** Replaying with these delays reproduces the recorded cadence: note `k` sounds the lead-in plus
      the recorded time since the first press after the replay starts. */
  lemma {:induction false} DelaysReproduceCadence(h: seq<Entry>, k: nat)
    requires k < |h|
    ensures Sum(Delays(h)[..k + 1]) == LeadInMs + h[k].time - h[0].time
  {
    var d := Delays(h);
    if k > 0 {
      DelaysReproduceCadence(h, k - 1);
      assert d[..k + 1][..k] == d[..k];
    } else {
      assert d[..1] == [LeadInMs];
      assert Sum(d[..1]) == Sum(d[..1][..0]) + LeadInMs;
    }
  }

  /** Presses at 1000, 1500 and 2200 ms replay after 500, 500 and 700 ms. */
  lemma DelaysExample(e0: Entry, e1: Entry, e2: Entry)
    requires e0.time == 1000 && e1.time == 1500 && e2.time == 2200
    ensures Delays([e0, e1, e2]) == [500, 500, 700]
  {
    var d := Delays([e0, e1, e2]);
    assert d[0] == 500 && d[1] == 500 && d[2] == 700;
  }
}

=== FILE: scoring.dfy ===
/** The per-press timing and pitch scorer. */
module Scoring {
  import opened Songs

  /** The timing verdict attached to one press. */
  datatype TimingLabel = Perfect | Fast | Slow | TooFast | TooSlow | WrongNote

  /** The text shown for each verdict. */
  function LabelText(l: TimingLabel): string
  {
    match l
    case Perfect => "Perfect"
    case Fast => "Fast"
    case Slow => "Slow"
    case TooFast => "Too Fast"
    case TooSlow => "Too Slow"
    case WrongNote => "Wrong Note"
  }

  /** Distinct verdicts show distinct texts. */
  lemma LabelTextInjective(a: TimingLabel, b: TimingLabel)
    ensures LabelText(a) == LabelText(b) ==> a == b
  {
  }

  /** A deviation of at most this many milliseconds is on time. */
  const PerfectWindow: int := 120
  /** A deviation of at most this many milliseconds is only slightly off. */
  const CloseWindow: int := 350

  /** A timing score together with its verdict. */
  datatype Grade = Grade(score: int, verdict: TimingLabel)

  /** One recorded press of the session history. */
  datatype Entry = Entry(
    note: Pitch,          // the key that was pressed
    correct: bool,        // whether it was the expected key
    time: int,            // the press time in milliseconds
    timingScore: int,     // 0, 40, 80 or 100
    timingLabel: TimingLabel,
    targetNote: Pitch)    // the key that was expected

  function Abs(x: int): nat { if x < 0 then -x else x }

  /** Grades a correctly pitched press by its deviation `diff` from the expected gap. */
  function GradeTiming(diff: int): (g: Grade)
    ensures g.verdict == Perfect <==> -PerfectWindow <= diff <= PerfectWindow
    ensures g.verdict == Fast <==> -CloseWindow <= diff < -PerfectWindow
    ensures g.verdict == Slow <==> PerfectWindow < diff <= CloseWindow
    ensures g.verdict == TooFast <==> diff < -CloseWindow
    ensures g.verdict == TooSlow <==> CloseWindow < diff
    ensures g.score == 100 <==> g.verdict == Perfect
    ensures g.score == 80 <==> (g.verdict == Fast || g.verdict == Slow)
    ensures g.score == 40 <==> (g.verdict == TooFast || g.verdict == TooSlow)
  {
    var absDiff := Abs(diff);
    if absDiff <= PerfectWindow then Grade(100, Perfect)
    else if absDiff <= CloseWindow then Grade(80, if diff < 0 then Fast else Slow)
    else Grade(40, if diff < 0 then TooFast else TooSlow)
  }

  /** Being further off never earns more. */
  lemma GradeMonotone(d1: int, d2: int)
    requires Abs(d1) <= Abs(d2)
    ensures GradeTiming(d1).score >= GradeTiming(d2).score
  {
  }

  /** Early and late by the same amount score the same; only the direction word flips. */
  lemma GradeSymmetric(diff: int)
    ensures GradeTiming(-diff).score == GradeTiming(diff).score
    ensures GradeTiming(diff).verdict == Fast <==> GradeTiming(-diff).verdict == Slow
    ensures GradeTiming(diff).verdict == TooFast <==> GradeTiming(-diff).verdict == TooSlow
  {
  }

  /** The shape every scored entry has: score in {0, 40, 80, 100}, wrong notes score 0 with label WrongNote. */
  predicate WellScored(e: Entry)
  {
    && (e.timingScore == 0 || e.timingScore == 40 || e.timingScore == 80 || e.timingScore == 100)
    && (e.correct <==> e.note == e.targetNote)
    && (e.correct <==> e.timingLabel != WrongNote)
    && (e.correct <==> e.timingScore != 0)
  }

  /** Scores a press of `played` at time `now` against the target at `index`, where the
      previous accepted press happened at `lastNoteTime`. */
  function ScoreAttempt(flat: seq<TargetNote>, index: nat, lastNoteTime: int, played: Pitch, now: int): (e: Entry)
    requires index < |flat|
    ensures e.note == played && e.time == now && e.targetNote == flat[index].n
    ensures e.correct <==> played == flat[index].n
    ensures !e.correct ==> e.timingScore == 0 && e.timingLabel == WrongNote
    ensures e.correct && index == 0 ==> e.timingScore == 100 && e.timingLabel == Perfect
    ensures e.correct && index > 0 ==>
      Grade(e.timingScore, e.timingLabel) == GradeTiming(now - lastNoteTime - NominalMs(flat[index - 1].d))
    ensures WellScored(e)
  {
    var target := flat[index];
    var isCorrectPitch := played == target.n;
    var g :=
      if !isCorrectPitch then Grade(0, WrongNote)
      else if index == 0 then Grade(100, Perfect)
      else
        var actualDuration := now - lastNoteTime;
        var targetDuration := NominalMs(flat[index - 1].d);
        GradeTiming(actualDuration - targetDuration);
    Entry(played, isCorrectPitch, now, g.score, g.verdict, target.n)
  }

  /** After a Medium note, a correct press 500, 350 and 900 ms later scores Perfect, Fast and Too Slow. */
  lemma ScoreExamples(p: Pitch, q: Pitch, t: int)
    ensures var flat := [TargetNote(p, Medium), TargetNote(q, Short)];
      && ScoreAttempt(flat, 1, t, q, t + 500) == Entry(q, true, t + 500, 100, Perfect, q)
      && ScoreAttempt(flat, 1, t, q, t + 350) == Entry(q, true, t + 350, 80, Fast, q)
      && ScoreAttempt(flat, 1, t, q, t + 900) == Entry(q, true, t + 900, 40, TooSlow, q)
  {
  }
}

=== FILE: session.dfy ===
/** The tutorial session: lifecycle, press handling and the replay timer chain. */
module Session {
  import opened Basics
  import opened Songs
  import opened Scoring
  import opened Replay
  import opened Aggregate

  /** The screen the game is on. */
  datatype Phase = Idle | Playing | Ended | Replaying | ReplayPaused

  /** An armed replay timer: when it fires it replays `entry` (position `index` of the history)
      and continues the chain with `plan`; `delay` is the wait it was armed with. */
  datatype Wake = Wake(index: nat, entry: Entry, delay: int, plan: seq<int>)

  /** The whole session state. */
  datatype State = State(
    phase: Phase,
    song: Option<string>,         // the selected title
    structure: seq<Phrase>,       // the selected song's phrases
    flat: seq<TargetNote>,        // the phrases flattened into the target sequence
    index: nat,                   // position of the next target note
    history: seq<Entry>,          // every scored press, oldest first
    lastNoteTime: int,            // time of the previous accepted press (or of the start)
    replayIndex: nat,             // replay cursor: how many entries the replay has emitted
    pending: Option<Wake>,        // the armed replay timer, if any
    held: Option<Pitch>)          // the key currently held down

  /** A replayed note: the wait before it, its position and the recorded entry. */
  datatype Emission = Emission(delay: int, index: nat, entry: Entry)

  /** What a step makes audible: nothing, a live key's tone, or a replayed note (tone and highlight). */
  datatype Effect = Quiet | Sound(p: Pitch) | Replayed(emission: Emission)

  datatype Outcome = Outcome(next: State, effect: Effect)

  /** `t` keeps everything of `s` that belongs to the tutorial itself: the song, its targets, the
      position in it, the time of the last press and the held key. */
  predicate KeepsTutorial(s: State, t: State)
  {
    && t.song == s.song && t.structure == s.structure && t.flat == s.flat
    && t.index == s.index && t.lastNoteTime == s.lastNoteTime && t.held == s.held
  }

  /** The state the game starts in. */
  function Init(): State
  {
    State(Idle, None, [], [], 0, [], 0, 0, None, None)
  }

  /** Begins a tutorial on the named song at time `now`. */
  function StartTutorial(s: State, name: string, now: int): (r: Result<State, SongError>)
    ensures r.Failure? <==> name !in Library
    ensures r.Success? ==>
      && r.value.phase == Playing
      && r.value.song == Some(name)
      && r.value.structure == Library[name]
      && r.value.flat == Flatten(Library[name])
      && |r.value.flat| == TotalLength(Library[name])
      && r.value.index == 0 && r.value.history == []
      && r.value.lastNoteTime == now
      && r.value.replayIndex == s.replayIndex && r.value.pending == s.pending && r.value.held == s.held
  {
    match LoadSong(name)
    case Failure(err) => Failure(err)
    case Success(structure) =>
      Success(s.(phase := Playing, song := Some(name), structure := structure, flat := Flatten(structure),
                 index := 0, history := [], lastNoteTime := now))
  }

  /** Arms the timer for position `index` of the replay, or ends the replay when nothing is left. */
  function PlayNext(s: State, index: nat, plan: seq<int>): (t: State)
    ensures index >= |s.history| ==> t.phase == Ended && t.pending == None
    ensures index < |s.history| ==>
      t.phase == s.phase && t.pending == Some(Wake(index, s.history[index], DelayFor(plan, index), plan))
    ensures t.history == s.history && t.replayIndex == s.replayIndex && KeepsTutorial(s, t)
  {
    if index >= |s.history| then s.(phase := Ended, pending := None)
    else s.(pending := Some(Wake(index, s.history[index], DelayFor(plan, index), plan)))
  }

  /** Starts replaying the whole history from the first entry. */
  function StartReplay(s: State): (t: State)
    ensures t.replayIndex == 0 && t.history == s.history && KeepsTutorial(s, t)
    ensures |s.history| == 0 ==> t.phase == Ended && t.pending == None
    ensures |s.history| > 0 ==>
      t.phase == Replaying && t.pending == Some(Wake(0, s.history[0], LeadInMs, Delays(s.history)))
  {
    PlayNext(s.(phase := Replaying, replayIndex := 0), 0, Delays(s.history))
  }

  /** Cancels the armed timer and keeps the cursor. */
  function PauseReplay(s: State): (t: State)
    ensures t.phase == ReplayPaused && t.pending == None
    ensures t.replayIndex == s.replayIndex && t.history == s.history && KeepsTutorial(s, t)
  {
    s.(pending := None, phase := ReplayPaused)
  }

  /** Continues the replay from the cursor with freshly computed delays. */
  function ResumeReplay(s: State): (t: State)
    ensures t.replayIndex == s.replayIndex && t.history == s.history && KeepsTutorial(s, t)
    ensures s.replayIndex >= |s.history| ==> t.phase == Ended && t.pending == None
    ensures s.replayIndex < |s.history| ==>
      && t.phase == Replaying
      && t.pending == Some(Wake(s.replayIndex, s.history[s.replayIndex],
                                Delays(s.history)[s.replayIndex], Delays(s.history)))
  {
    PlayNext(s.(phase := Replaying), s.replayIndex, Delays(s.history))
  }

  /** Cancels the armed timer, rewinds the cursor and returns to the results screen. */
  function StopReplay(s: State): (t: State)
    ensures t.phase == Ended && t.pending == None && t.replayIndex == 0
    ensures t.history == s.history && KeepsTutorial(s, t)
  {
    s.(pending := None, phase := Ended, replayIndex := 0)
  }

  /** Leaves the tutorial from any state: stops any replay and forgets the song and the history. */
  function ExitTutorial(s: State): (t: State)
    ensures t.phase == Idle && t.pending == None && t.replayIndex == 0
    ensures t.song == None && t.structure == [] && t.flat == [] && t.history == [] && t.index == 0
    ensures t.held == s.held && t.lastNoteTime == s.lastNoteTime
  {
    StopReplay(s).(phase := Idle, song := None, structure := [], flat := [], index := 0, history := [])
  }

  /** The armed replay timer fires: it replays its entry, advances the cursor and arms the next one. */
  function Fire(s: State): (o: Outcome)
    ensures s.pending.None? ==> o == Outcome(s, Quiet)
    ensures s.pending.Some? ==>
      && o.effect == Replayed(Emission(s.pending.value.delay, s.pending.value.index, s.pending.value.entry))
      && o.next.replayIndex == s.pending.value.index + 1
      && o.next.history == s.history
    ensures KeepsTutorial(s, o.next)
  {
    match s.pending
    case None => Outcome(s, Quiet)
    case Some(w) =>
      var t := s.(replayIndex := w.index + 1);
      Outcome(PlayNext(t, w.index + 1, w.plan), Replayed(Emission(w.delay, w.index, w.entry)))
  }

  /** A key goes down at time `now`: ignored during replay and while the same key is held;
      otherwise it sounds, and while playing it is scored and recorded. */
  function NoteDown(s: State, p: Pitch, now: int): (o: Outcome)
    requires s.phase == Playing ==> s.index < |s.flat|
    ensures (s.phase == Replaying || s.phase == ReplayPaused || s.held == Some(p)) ==> o == Outcome(s, Quiet)
    ensures !(s.phase == Replaying || s.phase == ReplayPaused || s.held == Some(p)) ==>
      o.effect == Sound(p) && o.next.held == Some(p)
    ensures s.phase != Playing ==> o.next.history == s.history && o.next.phase == s.phase
    ensures s.phase != Playing ==> o.next.index == s.index && o.next.lastNoteTime == s.lastNoteTime
    ensures s.phase == Playing && s.held != Some(p) ==>
      && |o.next.history| == |s.history| + 1
      && o.next.history[..|s.history|] == s.history
      && o.next.history[|s.history|] == ScoreAttempt(s.flat, s.index, s.lastNoteTime, p, now)
      && o.next.history[|s.history|].targetNote == s.flat[s.index].n
      && o.next.history[|s.history|].time == now
      && o.next.lastNoteTime == now
      && (s.index < |s.flat| - 1 ==> o.next.phase == Playing && o.next.index == s.index + 1)
      && (s.index == |s.flat| - 1 ==> o.next.phase == Ended && o.next.index == s.index)
    ensures o.next.pending == s.pending && o.next.replayIndex == s.replayIndex
    ensures o.next.flat == s.flat && o.next.song == s.song && o.next.structure == s.structure
  {
    if s.phase == Replaying || s.phase == ReplayPaused then Outcome(s, Quiet)
    else if s.held == Some(p) then Outcome(s, Quiet)
    else
      var s1 := s.(held := Some(p));
      if s.phase != Playing then Outcome(s1, Sound(p))
      else
        var entry := ScoreAttempt(s.flat, s.index, s.lastNoteTime, p, now);
        var s2 := s1.(history := s.history + [entry], lastNoteTime := now);
        var s3 := if s.index < |s.flat| - 1 then s2.(index := s.index + 1) else s2.(phase := Ended);
        Outcome(s3, Sound(p))
  }

  /** A key goes up: nothing is held any more. */
  function NoteUp(s: State): (t: State)
    ensures t.held == None && t == s.(held := None)
  {
    s.(held := None)
  }

  /** The inputs the game reacts to. */
  datatype Event =
    | ChooseSong(name: string, now: int)
    | Quit
    | KeyDown(p: Pitch, now: int)
    | KeyUp
    | ReplayClicked
    | Pause
    | Resume
    | Stop
    | TimerFires

  /** Whether the current screen offers the button that produces `ev`; keys and timers are always live. */
  predicate Offered(ph: Phase, ev: Event)
  {
    match ev
    case ChooseSong(_, _) => ph == Idle
    case Quit => ph == Playing || ph == Ended
    case ReplayClicked => ph == Ended
    case Pause => ph == Replaying
    case Resume => ph == ReplayPaused
    case Stop => ph == Replaying || ph == ReplayPaused
    case _ => true
  }

  /** One step of the game. */
  function Step(s: State, ev: Event): (o: Outcome)
    requires s.phase == Playing ==> s.index < |s.flat|
    ensures !Offered(s.phase, ev) ==> o == Outcome(s, Quiet)
    ensures o.effect.Replayed? ==> ev == TimerFires && s.pending.Some?
    ensures o.next.history != s.history ==>
      (ev.KeyDown? && s.phase == Playing) || (ev.ChooseSong? && s.phase == Idle) || (ev == Quit)
  {
    if !Offered(s.phase, ev) then Outcome(s, Quiet)
    else
      match ev
      case ChooseSong(name, now) =>
        (match StartTutorial(s, name, now)
         case Success(t) => Outcome(t, Quiet)
         case Failure(_) => Outcome(s, Quiet))
      case Quit => Outcome(ExitTutorial(s), Quiet)
      case KeyDown(p, now) => NoteDown(s, p, now)
      case KeyUp => Outcome(NoteUp(s), Quiet)
      case ReplayClicked => Outcome(StartReplay(s), Quiet)
      case Pause => Outcome(PauseReplay(s), Quiet)
      case Resume => Outcome(ResumeReplay(s), Quiet)
      case Stop => Outcome(StopReplay(s), Quiet)
      case TimerFires => Fire(s)
  }

  /** The timer the replay chain has armed when its cursor is at `k`. */
  function Armed(h: seq<Entry>, k: nat): Wake
    requires k < |h|
  {
    Wake(k, h[k], DelayFor(Delays(h), k), Delays(h))
  }

  /** The recorded entry `e` answers target `t`. */
  predicate Answers(e: Entry, t: TargetNote)
  {
    e.targetNote == t.n && WellScored(e)
  }

  /** The invariant of every reachable session state. */
  predicate Valid(s: State)
  {
    && s.flat == Flatten(s.structure)
    && (s.song.None? ==> s.structure == [])
    && (s.song.Some? ==> s.song.value in Library && s.structure == Library[s.song.value])
    && |s.history| <= |s.flat|
    && (forall j :: 0 <= j < |s.history| ==> Answers(s.history[j], s.flat[j]))
    && (s.phase == Idle ==> s.song.None? && s.history == [] && s.index == 0)
    && (s.phase == Playing ==> s.song.Some? && s.index < |s.flat| && |s.history| == s.index)
    && (s.phase != Idle && s.phase != Playing ==>
          s.song.Some? && 0 < |s.history| == |s.flat| && s.index == |s.flat| - 1)
    && (s.pending.Some? <==> s.phase == Replaying)
    && (s.phase == Replaying ==> s.replayIndex < |s.history| && s.pending == Some(Armed(s.history, s.replayIndex)))
    && (s.phase == ReplayPaused ==> s.replayIndex < |s.history|)
  }

  lemma InitValid()
    ensures Valid(Init()) && Init().phase == Idle
  {
  }

  lemma StartTutorialValid(s: State, name: string, now: int)
    requires Valid(s) && s.phase == Idle && name in Library
    ensures Valid(StartTutorial(s, name, now).value)
  {
    LibrarySongsNonEmpty(name);
  }

  lemma ExitTutorialValid(s: State)
    ensures Valid(ExitTutorial(s))
  {
  }

  /** Appending an entry that answers the next target keeps every entry answering its target. */
  lemma AppendAnswers(h: seq<Entry>, flat: seq<TargetNote>, e: Entry)
    requires |h| < |flat|
    requires forall j :: 0 <= j < |h| ==> Answers(h[j], flat[j])
    requires Answers(e, flat[|h|])
    ensures forall j :: 0 <= j < |h + [e]| ==> Answers((h + [e])[j], flat[j])
  {
    forall j | 0 <= j < |h + [e]| ensures Answers((h + [e])[j], flat[j]) {
      if j < |h| {
        assert (h + [e])[j] == h[j];
      }
    }
  }

  lemma ScoredPressValid(s: State, p: Pitch, now: int)
    requires Valid(s) && s.phase == Playing && s.held != Some(p)
    ensures Valid(NoteDown(s, p, now).next)
  {
    var e := ScoreAttempt(s.flat, s.index, s.lastNoteTime, p, now);
    AppendAnswers(s.history, s.flat, e);
    var t := NoteDown(s, p, now).next;
    assert t.history == s.history + [e];
  }

  lemma NoteDownValid(s: State, p: Pitch, now: int)
    requires Valid(s)
    ensures Valid(NoteDown(s, p, now).next)
  {
    if s.phase == Playing && s.held != Some(p) {
      ScoredPressValid(s, p, now);
    } else {
      var t := NoteDown(s, p, now).next;
      assert t == s || t == s.(held := Some(p));
    }
  }

  lemma NoteUpValid(s: State)
    requires Valid(s)
    ensures Valid(NoteUp(s))
  {
  }

  /** A state that keeps the finished tutorial and its history is valid once its replay fields agree. */
  lemma ReplayFrameValid(s: State, t: State)
    requires Valid(s) && s.phase != Idle && s.phase != Playing
    requires KeepsTutorial(s, t) && t.history == s.history
    requires t.phase == Ended || t.phase == Replaying || t.phase == ReplayPaused
    requires t.pending.Some? <==> t.phase == Replaying
    requires t.phase == Replaying ==> t.replayIndex < |t.history| && t.pending == Some(Armed(t.history, t.replayIndex))
    requires t.phase == ReplayPaused ==> t.replayIndex < |t.history|
    ensures Valid(t)
  {
  }

  lemma StartReplayValid(s: State)
    requires Valid(s) && s.phase == Ended
    ensures Valid(StartReplay(s))
  {
    ReplayFrameValid(s, StartReplay(s));
  }

  lemma PauseReplayValid(s: State)
    requires Valid(s) && s.phase == Replaying
    ensures Valid(PauseReplay(s))
  {
  }

  lemma ResumeReplayValid(s: State)
    requires Valid(s) && s.phase == ReplayPaused
    ensures Valid(ResumeReplay(s))
  {
  }

  lemma StopReplayValid(s: State)
    requires Valid(s) && (s.phase == Replaying || s.phase == ReplayPaused)
    ensures Valid(StopReplay(s))
  {
  }

  /** Firing the armed timer of a running replay moves the cursor on and arms the following entry,
      or ends the replay after the last one; nothing else changes. */
  lemma FireArmsNext(s: State)
    requires s.phase == Replaying && s.replayIndex < |s.history|
    requires s.pending == Some(Armed(s.history, s.replayIndex))
    ensures s.replayIndex + 1 < |s.history| ==>
      Fire(s).next == s.(replayIndex := s.replayIndex + 1, pending := Some(Armed(s.history, s.replayIndex + 1)))
    ensures s.replayIndex + 1 >= |s.history| ==>
      Fire(s).next == s.(replayIndex := s.replayIndex + 1, phase := Ended, pending := None)
  {
  }

  lemma ArmNextValid(s: State)
    requires Valid(s) && s.phase == Replaying && s.replayIndex + 1 < |s.history|
    ensures Valid(s.(replayIndex := s.replayIndex + 1, pending := Some(Armed(s.history, s.replayIndex + 1))))
  {
  }

  lemma ReplayDoneValid(s: State)
    requires Valid(s) && s.phase == Replaying
    ensures Valid(s.(replayIndex := s.replayIndex + 1, phase := Ended, pending := None))
  {
  }

  lemma FireValid(s: State)
    requires Valid(s)
    ensures Valid(Fire(s).next)
  {
    if s.pending.Some? {
      FireArmsNext(s);
      if s.replayIndex + 1 < |s.history| {
        ArmNextValid(s);
      } else {
        ReplayDoneValid(s);
      }
    }
  }

  /** Every step keeps the session invariant. */
  lemma StepPreservesValid(s: State, ev: Event)
    requires Valid(s)
    ensures Valid(Step(s, ev).next)
  {
    if Offered(s.phase, ev) {
      match ev
      case ChooseSong(name, now) =>
        if name in Library {
          StartTutorialValid(s, name, now);
        }
      case Quit => ExitTutorialValid(s);
      case KeyDown(p, now) => NoteDownValid(s, p, now);
      case KeyUp => NoteUpValid(s);
      case ReplayClicked => StartReplayValid(s);
      case Pause => PauseReplayValid(s);
      case Resume => ResumeReplayValid(s);
      case Stop => StopReplayValid(s);
      case TimerFires => FireValid(s);
    }
  }

  /** Pausing and resuming at once puts the replay back exactly where it was, with the same armed timer. */
  lemma PauseResumeRestores(s: State)
    requires Valid(s) && s.phase == Replaying
    ensures ResumeReplay(PauseReplay(s)) == s
  {
  }

  /** Fires the armed timer `n` times, collecting the replayed notes. */
  function RunTimers(s: State, n: nat): (State, seq<Emission>)
    decreases n
  {
    if n == 0 then (s, [])
    else
      var o := Fire(s);
      var rest := RunTimers(o.next, n - 1);
      (rest.0, (if o.effect.Replayed? then [o.effect.emission] else []) + rest.1)
  }

  /** The complete replay of a history: every entry in order, each after its recorded delay. */
  function ReplayPlan(h: seq<Entry>): (plan: seq<Emission>)
    ensures |plan| == |h|
    ensures forall i :: 0 <= i < |h| ==> plan[i] == Emission(Delays(h)[i], i, h[i])
  {
    seq(|h|, i requires 0 <= i < |h| => Emission(Delays(h)[i], i, h[i]))
  }

  /** A replay is running: its timer is armed for the entry under the cursor. */
  predicate RunningReplay(s: State)
  {
    s.phase == Replaying && s.replayIndex < |s.history| && s.pending == Some(Armed(s.history, s.replayIndex))
  }

  /** One firing during a running replay emits the entry under the cursor with its recorded delay,
      then either keeps the replay running one entry further or ends it. */
  lemma FireReplaysCursor(s: State)
    requires RunningReplay(s)
    ensures Fire(s).effect == Replayed(ReplayPlan(s.history)[s.replayIndex])
    ensures Fire(s).next.replayIndex == s.replayIndex + 1 && Fire(s).next.history == s.history
    ensures s.replayIndex + 1 < |s.history| ==> RunningReplay(Fire(s).next)
    ensures s.replayIndex + 1 == |s.history| ==> Fire(s).next.phase == Ended && Fire(s).next.pending == None
  {
  }

  /** From any point of a running replay, the remaining timers emit exactly the entries not yet
      replayed, in order and with their recorded delays, and then the replay ends with the cursor
      past the last entry. */
  lemma {:induction false} ReplayEmitsRemaining(s: State)
    requires RunningReplay(s)
    ensures RunTimers(s, |s.history| - s.replayIndex).1 == ReplayPlan(s.history)[s.replayIndex..]
    ensures RunTimers(s, |s.history| - s.replayIndex).0.phase == Ended
    ensures RunTimers(s, |s.history| - s.replayIndex).0.pending == None
    ensures RunTimers(s, |s.history| - s.replayIndex).0.replayIndex == |s.history|
    decreases |s.history| - s.replayIndex
  {
    var h := s.history;
    var k := s.replayIndex;
    var plan := ReplayPlan(h);
    FireReplaysCursor(s);
    var next := Fire(s).next;
    var rest := RunTimers(next, |h| - k - 1);
    assert RunTimers(s, |h| - k) == (rest.0, [plan[k]] + rest.1);
    if k + 1 < |h| {
      ReplayEmitsRemaining(next);
      assert plan[k..] == [plan[k]] + plan[k + 1..];
    } else {
      assert rest == (next, []);
      assert plan[k..] == [plan[k]];
    }
  }

  /** Replaying a finished session emits the whole history with the recorded delays and ends. */
  lemma FullReplay(s: State)
    requires Valid(s) && s.phase == Ended
    ensures RunTimers(StartReplay(s), |s.history|).1 == ReplayPlan(s.history)
    ensures RunTimers(StartReplay(s), |s.history|).0.phase == Ended
    ensures RunTimers(StartReplay(s), |s.history|).0.pending == None
  {
    var r := StartReplay(s);
    StartReplayValid(s);
    ReplayEmitsRemaining(r);
  }

  /** Resuming from any paused state, whatever happened while paused, emits exactly the entries not
      yet replayed, in order and with their recorded delays. */
  lemma ResumeFromAnyPause(p: State)
    requires Valid(p) && p.phase == ReplayPaused
    ensures RunTimers(ResumeReplay(p), |p.history| - p.replayIndex).1 == ReplayPlan(p.history)[p.replayIndex..]
  {
    assert RunningReplay(ResumeReplay(p));
    ReplayEmitsRemaining(ResumeReplay(p));
  }

  /** A pause at any point followed by a resume emits the same notes with the same delays as an
      uninterrupted replay would. */
  lemma PauseResumeSameTrace(s: State)
    requires Valid(s) && s.phase == Replaying
    ensures RunTimers(ResumeReplay(PauseReplay(s)), |s.history| - s.replayIndex).1
         == ReplayPlan(s.history)[s.replayIndex..]
  {
    PauseReplayValid(s);
    ResumeFromAnyPause(PauseReplay(s));
  }

  /** After leaving the tutorial no replay timer is armed, so a late timer makes no sound. */
  lemma ExitSilencesReplay(s: State)
    ensures Fire(ExitTutorial(s)).effect == Quiet
    ensures Fire(ExitTutorial(s)).next == ExitTutorial(s)
  {
  }

  /** Every state the game can be in has a final score between 0 and 100. */
  lemma FinalScoreOfValid(s: State)
    requires Valid(s)
    ensures 0 <= FinalScore(s.history) <= 100
  {
    assert ScoresInRange(s.history) by {
      forall i | 0 <= i < |s.history| ensures 0 <= s.history[i].timingScore <= 100 {
        assert Answers(s.history[i], s.flat[i]);
      }
    }
    FinalScoreInRange(s.history);
  }
}

=== FILE: songs.dfy ===
/** The static song model: the seven keys, the duration classes and the song library. */
module Songs {
  import opened Basics

  /** The seven playable keys of the fourth octave, in keyboard order. */
  datatype Pitch = C | D | E | F | G | A | B

  /** The nominal length class of a target note: 'S', 'M' or 'L'. */
  datatype DurationClass = Short | Medium | Long

  /** One note of a melody: what to play and how long to wait before the next onset. */
  datatype TargetNote = TargetNote(n: Pitch, d: DurationClass)

  /** A phrase is one row of a song; a song is a sequence of phrases. */
  type Phrase = seq<TargetNote>

  /** Why a song could not be loaded. */
  datatype SongError = UnknownSong(name: string)

  /** Nominal duration of a class in milliseconds. */
  function NominalMs(d: DurationClass): (ms: nat)
    ensures ms == 250 || ms == 500 || ms == 1000
  {
    match d
    case Short => 250
    case Medium => 500
    case Long => 1000
  }

  /** Each longer class is exactly twice the previous one, so the classes are strictly ordered. */
  lemma NominalMsDoubles()
    ensures NominalMs(Medium) == 2 * NominalMs(Short)
    ensures NominalMs(Long) == 2 * NominalMs(Medium)
  {
  }

  /** The keyboard key that triggers a pitch (always a lower-case letter). */
  function KeyTrigger(p: Pitch): char
  {
    match p
    case C => 'c'
    case D => 'd'
    case E => 'e'
    case F => 'f'
    case G => 'g'
    case A => 'a'
    case B => 'b'
  }

  /** ASCII lower-casing of one character. */
  function LowerAscii(c: char): char
  {
    if 'A' <= c <= 'Z' then (c as int + 32) as char else c
  }

  /** The key lookup: a key name selects the pitch whose trigger equals its lower-cased form. */
  function PitchOfKey(key: string): (r: Option<Pitch>)
    ensures r.Some? ==> |key| == 1 && KeyTrigger(r.value) == LowerAscii(key[0])
    ensures r.None? ==> forall p: Pitch :: [KeyTrigger(p)] != LowerAsciiString(key)
  {
    if |key| != 1 then None
    else
      match LowerAscii(key[0])
      case 'c' => Some(C)
      case 'd' => Some(D)
      case 'e' => Some(E)
      case 'f' => Some(F)
      case 'g' => Some(G)
      case 'a' => Some(A)
      case 'b' => Some(B)
      case _ => None
  }

  /** Lower-casing of a whole key name, character by character. */
  function LowerAsciiString(s: string): (t: string)
    ensures |t| == |s|
    ensures forall i :: 0 <= i < |s| ==> t[i] == LowerAscii(s[i])
  {
    if |s| == 0 then [] else [LowerAscii(s[0])] + LowerAsciiString(s[1..])
  }

  /** Every pitch is found again from its own key, typed in either case. */
  lemma KeyRoundTrip(p: Pitch)
    ensures PitchOfKey([KeyTrigger(p)]) == Some(p)
    ensures PitchOfKey([(KeyTrigger(p) as int - 32) as char]) == Some(p)
  {
  }

  /** Distinct pitches have distinct keys, so the lookup never has to pick between two. */
  lemma KeyTriggerInjective(p: Pitch, q: Pitch)
    ensures KeyTrigger(p) == KeyTrigger(q) ==> p == q
  {
  }

  function N(n: Pitch, d: DurationClass): TargetNote { TargetNote(n, d) }

  const OdeToJoy: seq<Phrase> := [
    [N(E, Medium), N(E, Medium), N(F, Medium), N(G, Medium)],
    [N(G, Medium), N(F, Medium), N(E, Medium), N(D, Medium)],
    [N(C, Medium), N(C, Medium), N(D, Medium), N(E, Medium)],
    [N(E, Long), N(D, Short), N(D, Long)]
  ]

  const SharkRun: Phrase := [N(G, Short), N(G, Short), N(G, Short), N(G, Short), N(G, Short), N(G, Short), N(G, Short)]

  const BabyShark: seq<Phrase> := [
    [N(D, Long), N(E, Long)],
    SharkRun,
    [N(D, Long), N(E, Long)],
    SharkRun,
    [N(G, Long), N(G, Long)]
  ]

  const JingleBells: seq<Phrase> := [
    [N(E, Medium), N(E, Medium), N(E, Long)],
    [N(E, Medium), N(E, Medium), N(E, Long)],
    [N(E, Medium), N(G, Medium), N(C, Medium), N(D, Short), N(E, Long)],
    [N(F, Medium), N(F, Medium), N(F, Medium), N(F, Short), N(F, Short)],
    [N(E, Medium), N(E, Medium), N(E, Medium), N(E, Short), N(E, Short)],
    [N(G, Medium), N(G, Medium), N(F, Medium), N(D, Medium), N(C, Long)]
  ]

  /** The song library, keyed by the titles shown on the menu. */
  const Library: map<string, seq<Phrase>> :=
    map["Ode to Joy" := OdeToJoy, "Baby Shark" := BabyShark, "Jingle Bells" := JingleBells]

  /** Looks a song up by title; an unknown title is an error. */
  function LoadSong(name: string): (r: Result<seq<Phrase>, SongError>)
    ensures r.Success? <==> name in Library
    ensures r.Success? ==> r.value == Library[name]
    ensures r.Failure? ==> r.error == UnknownSong(name)
  {
    if name in Library then Success(Library[name]) else Failure(UnknownSong(name))
  }

  /** Sum of the phrase lengths. */
  function TotalLength(ps: seq<Phrase>): nat
  {
    if |ps| == 0 then 0 else |ps[0]| + TotalLength(ps[1..])
  }

  /** Position in the flattened melody at which phrase `i` begins. */
  function Offset(ps: seq<Phrase>, i: nat): nat
    requires i <= |ps|
  {
    if i == 0 then 0 else |ps[0]| + Offset(ps[1..], i - 1)
  }

  /** One-level flattening of the phrases into the target sequence. */
  function Flatten(ps: seq<Phrase>): (flat: seq<TargetNote>)
    ensures |flat| == TotalLength(ps)
    ensures |ps| > 0 ==> flat[..|ps[0]|] == ps[0]
  {
    if |ps| == 0 then [] else ps[0] + Flatten(ps[1..])
  }

  /** Flattening keeps every note, in order: note `j` of phrase `i` lands at `Offset(ps, i) + j`. */
  lemma {:induction false} FlattenPlacesNote(ps: seq<Phrase>, i: nat, j: nat)
    requires i < |ps| && j < |ps[i]|
    ensures Offset(ps, i) + j < |Flatten(ps)|
    ensures Flatten(ps)[Offset(ps, i) + j] == ps[i][j]
  {
    if i == 0 {
      assert Flatten(ps) == ps[0] + Flatten(ps[1..]);
    } else {
      FlattenPlacesNote(ps[1..], i - 1, j);
      assert Flatten(ps) == ps[0] + Flatten(ps[1..]);
    }
  }

  /** Conversely, every position of the flattened melody comes from some note of some phrase. */
  lemma {:induction false} FlattenCovers(ps: seq<Phrase>, k: nat)
    requires k < |Flatten(ps)|
    ensures exists i: nat, j: nat :: i < |ps| && j < |ps[i]| && Offset(ps, i) + j == k && Flatten(ps)[k] == ps[i][j]
  {
    assert Flatten(ps) == ps[0] + Flatten(ps[1..]);
    if k < |ps[0]| {
      var i: nat, j: nat := 0, k;
      assert i < |ps| && j < |ps[i]| && Offset(ps, i) + j == k && Flatten(ps)[k] == ps[i][j];
    } else {
      FlattenCovers(ps[1..], k - |ps[0]|);
      var i: nat, j: nat :| i < |ps[1..]| && j < |ps[1..][i]| && Offset(ps[1..], i) + j == k - |ps[0]|
                           && Flatten(ps[1..])[k - |ps[0]|] == ps[1..][i][j];
      assert Offset(ps, i + 1) == |ps[0]| + Offset(ps[1..], i);
      assert Offset(ps, i + 1) + j == k && ps[i + 1][j] == ps[1..][i][j];
    }
  }

  /** Every song of the library has a non-empty melody, so a tutorial always has a first target. */
  lemma LibrarySongsNonEmpty(name: string)
    requires name in Library
    ensures |Flatten(Library[name])| > 0
  {
    var ps := Library[name];
    assert |ps| > 0 && |ps[0]| > 0;
    assert Flatten(ps)[..|ps[0]|] == ps[0];
  }

  /** The melody lengths of the three library songs. */
  lemma LibraryLengths()
    ensures |Flatten(OdeToJoy)| == 15
    ensures |Flatten(BabyShark)| == 20
    ensures |Flatten(JingleBells)| == 26
  {
    assert TotalLength(OdeToJoy[3..]) == 3;
    assert TotalLength(OdeToJoy[2..]) == 7;
    assert TotalLength(OdeToJoy[1..]) == 11;
    assert TotalLength(BabyShark[4..]) == 2;
    assert TotalLength(BabyShark[3..]) == 9;
    assert TotalLength(BabyShark[2..]) == 11;
    assert TotalLength(BabyShark[1..]) == 18;
    assert TotalLength(JingleBells[5..]) == 5;
    assert TotalLength(JingleBells[4..]) == 10;
    assert TotalLength(JingleBells[3..]) == 15;
    assert TotalLength(JingleBells[2..]) == 20;
    assert TotalLength(JingleBells[1..]) == 23;
  }
}
